=== FILE: README.md ===
# Cleaning-service page script: decision logic

A model of the decisions taken by the event handlers of the cleaning-service
brochure page (`script.js`). Every DOM collection becomes a sequence of
immutable records, and every handler becomes a pure function or a single
state step:

- `ActiveNav` models `updateActiveNav`. The sections are scanned in document
  order and the last one whose band `[offsetTop - 100, offsetTop - 100 + offsetHeight)`
  holds the scroll offset is kept. If none does, the result is `""`. Each
  desktop and mobile navigation link is then cleared and marked active
  exactly when its `href` is `"#"` followed by that id.
- `Gallery` models the gallery-tab click handler, including its two kinds of
  `setTimeout` callbacks. They are kept as explicit pending timers with a due
  time, a target item and an effect. `Advance` moves the clock and fires
  every timer that is due.
- `ContactForm` models `submitForm`. The form is accepted exactly when all
  five values are non-empty strings, which is JavaScript truthiness. On
  acceptance the five fields are reset to `""`.
- `QuoteRequest` models `openQuoteModal`. It covers the service slug
  (lower-case, then `[^a-z0-9]` becomes `-`) and the quote message template.
- `ScrollTop` models the scroll-to-top handler as a step on the number of
  `.scroll-top` buttons in the document.
- `Dom` holds shared abstractions. `Attr` is what `getAttribute` returns:
  `null` or a text. `Truthy` is JavaScript string truthiness.

Points where the code does less than a reader might expect, which the model
follows as written:
- `submitForm` does not trim values and does not check the e-mail's shape.
  A value of spaces passes, and so does `"not-an-email"`.
- There is no notification toast. `alert` is called with a fixed text, and
  `Submission.alert` records which text.
- The scroll handlers are not debounced. `updateActiveNav` runs on every
  scroll event.
- The scroll-to-top button is removed at once, with no exit transition. At
  or below 500 pixels only the first `.scroll-top` button found is removed.
- The gallery handler does not cancel timers left over from an earlier click
  (see Findings).

## Model

| member | source | states |
|---|---|---|
| ActiveNav.LastMatch | script.js:24-31 | the index returned is a section whose band holds the offset and no later section's band does; `None` exactly when no band holds it |
| ActiveNav.CurrentSection | script.js:24-31 | the current id is that of the last section in document order whose band holds the offset, or `""` when no band holds it |
| ActiveNav.ScanCurrent | script.js:24-31 | the `forEach` scan that overwrites `current` on every match ends with the last match's id |
| ActiveNav.MarkLink | script.js:33-38 | after the class is removed and maybe added back, a link is active exactly when its href is `"#" + current`, and its href is unchanged |
| ActiveNav.MarkLinks | script.js:33-45 | every link of a collection keeps its href, and each is active exactly when its href is `"#" + current` |
| ActiveNav.UpdateActiveNav | script.js:23-46 | sections are unchanged; both the desktop and the mobile links are marked for the last matching section |
| ActiveNav.UpdateIgnoresPriorMarks | script.js:33-45 | the outcome does not depend on which links were active before |
| ActiveNav.UpdateIdempotent | script.js:23-48 | handling the same scroll offset twice gives what handling it once gives |
| ActiveNav.AtMostOneActive | script.js:33-45 | in a link collection with distinct hrefs, desktop or mobile, no two links are active at once |
| ActiveNav.ActiveLinkNamesLastSection | script.js:24-45 | in either link collection, an active link points at the last section whose band holds the offset; with no match, it is a bare `"#"` |
| ActiveNav.NoMatchMarksBareHash | script.js:24-45 | when no band holds the offset, in either link collection exactly the links whose href is `"#"` become active |
| Gallery.ActivateTab | script.js:94-95 | after a click, exactly the clicked tab is active; categories are unchanged |
| Gallery.StartItem | script.js:99-107 | the click makes an item transparent at once; a selected item gets `display: block`, any other keeps its display; the category is kept |
| Gallery.ItemTimer | script.js:100-111 | a selected item gets a reveal timer due 100 ms after the click, any other a collapse timer due 300 ms after, both aimed at that item |
| Gallery.StartFilter | script.js:98-107 | every item is made transparent at once; selected items get `display: block`, the others keep their display |
| Gallery.Schedule | script.js:98-112 | one timer per item, in item order: a selected item gets a reveal due 100 ms after the click, any other a collapse due 300 ms after |
| Gallery.Click | script.js:89-114 | the tabs keep their number and categories and the clicked tab alone is active; every item is made transparent at once; selected items get `display: block` and the others keep their display; the pending timers are kept and the click's `Schedule` is appended after them |
| Gallery.ApplyEffect | script.js:103-110 | a reveal sets only the opacity, to opaque; a collapse sets only the display, to none |
| Gallery.Apply | script.js:103-110 | a fired timer changes only its own item, as `ApplyEffect` says, and leaves every other item as it was |
| Gallery.EffectsCommute | script.js:103-110 | any two timers, whether on the same item or different ones, give the same styles in either firing order |
| Gallery.FireDue | script.js:103-110 | after the due timers fire, an item is out of the layout exactly when it already was or a due collapse targets it, and opaque exactly when it already was or a due reveal targets it; categories are kept |
| Gallery.Pending | script.js:103-110 | a timer stays pending exactly when it is not yet due; nothing stays pending once all are due |
| Gallery.Advance | script.js:103-110 | moving the clock keeps exactly the timers not yet due, keeps the tabs, and styles each item as the timers that fell due say |
| Gallery.Filter | script.js:98-112 | settled outcome: an item is displayed exactly when the category is `"all"` or equals its own, and is then opaque; otherwise it is out of the layout and transparent |
| Gallery.FilterIdempotent | script.js:98-112 | filtering by the same category twice gives what filtering once gives |
| Gallery.FilterAllShowsEverything | script.js:100-101 | category `"all"` shows every item, whatever was shown before |
| Gallery.FireSchedule | script.js:98-112 | once all of a click's timers have fired, the items are exactly `Filter` of the category |
| Gallery.ClickSettles | script.js:89-114 | with no earlier timer pending, a click and 300 ms leave the clicked tab alone active, the items as `Filter` says, and no timer pending |
| Gallery.ReclickIdempotent | script.js:89-114 | once settled, clicking the same tab again leaves the items as they were |
| Gallery.RapidClicksHideSelectedItem | script.js:103-110 | clicking another tab less than 300 ms after a first click can leave a selected item out of the layout |
| Gallery.ClickCancelling | script.js:89-114 | a click that cancels earlier timers makes the clicked tab alone active, styles the items as the click does, and leaves pending exactly the click's own timers, all due within 300 ms |
| Gallery.CancellingClickSettles | script.js:89-114 | with cancellation, a click and 300 ms settle the items on the clicked category from any state |
| ContactForm.SubmitForm | script.js:117-146 | accepted exactly when all five values are non-empty; if accepted, all five fields become `""` with the thank-you alert; otherwise fields are unchanged with the fill-in alert |
| ContactForm.OneEmptyFieldRejects | script.js:124-145 | any single empty field causes rejection with the fill-in alert and no change to the form |
| ContactForm.BlankValuesAccepted | script.js:124 | any five non-empty values made only of spaces are accepted and the form is cleared, since nothing is trimmed |
| ContactForm.EmailShapeNotChecked | script.js:118-124 | any non-empty e-mail text is accepted |
| ContactForm.ResubmitAfterAcceptRejected | script.js:133-138 | after an accepted submission, sending the cleared form again is rejected |
| ContactForm.RejectionStable | script.js:143-145 | resubmitting a rejected form gives the same rejection |
| QuoteRequest.QuoteMessage | script.js:150 | the message is the template's prefix, the service name, then the template's suffix |
| QuoteRequest.ParseQuoteMessage | script.js:150 | a name read back from a message rebuilds exactly that message |
| QuoteRequest.QuoteMessageRoundTrip | script.js:150 | the service name is recovered from its quote message |
| QuoteRequest.LowerChar | script.js:151 | `A`-`Z` map to `a`-`z` with the same offset; other characters are unchanged |
| QuoteRequest.LowerCase | script.js:151 | lower-casing keeps the length and lower-cases each character in place |
| QuoteRequest.ReplaceOutsideClass | script.js:151 | keeps the length; characters in `[a-z0-9]` stay, all others become `-` |
| QuoteRequest.Slug | script.js:151 | same length as the input; only `[a-z0-9-]`; each ASCII letter or digit lower-cased in place; every other character becomes `-` |
| QuoteRequest.SlugIdempotent | script.js:151 | slugging a slug returns it unchanged |
| QuoteRequest.SlugFixedPoints | script.js:151 | the strings a slug leaves unchanged are exactly those made of `[a-z0-9-]` |
| QuoteRequest.OpenQuoteModal | script.js:149-153 | name, e-mail and phone are untouched; the service field is the slug of the name, of the same length and over `[a-z0-9-]`; the message yields the service name back |
| QuoteRequest.QuoteThenSubmit | script.js:149-152 | after a quote request, the form is accepted exactly when name, e-mail and phone are filled in and the service name is non-empty |
| ScrollTop.OnScroll | script.js:247-289 | with at most one button, a button exists afterwards exactly when the offset is strictly above 500; a second button is never created |
| ScrollTop.OnScrollIdempotent | script.js:248-249 | with at most one button, handling the same offset twice gives what handling it once gives |
| ScrollTop.Replay | script.js:247-290 | starting with at most one button, any run of scroll events keeps at most one button, and after the last event a button exists exactly when its offset is above 500 |

## Findings

| source | as written | input that shows it | evidently intended | confidence | as-written member | corrected member |
|---|---|---|---|---|---|---|
| script.js:103-110 | a tab click schedules `display = 'none'` timers without cancelling the timers of an earlier click | tabs `all` and `kitchen`, one `bath` item; click `kitchen`, then click `all` 50 ms later, then wait 300 ms: the first click's timer hides the item while `all` is active | the visible items depend only on the last selected category | medium, not executed | Gallery.RapidClicksHideSelectedItem | Gallery.CancellingClickSettles |

`Gallery.ClickCancelling` is the corrected handler: it drops pending timers
before it schedules its own. `Gallery.ClickSettles` and
`Gallery.ReclickIdempotent` hold for the handler as written, but only when no
earlier timer is still pending.

## Left out

- Mobile navigation open/close (script.js:1-16): it only adds or removes a class.
- Smooth scrolling and `scrollIntoView` (script.js:50-62, 154-157): browser scrolling with no decision beyond a null check.
- The statistics counter (script.js:65-83): it uses floating-point increments, `parseInt` that may give `NaN`, and `setInterval` timing.
- The header restyle, hover effects, CTA pulse and body fade-in (script.js:161-170, 212-231, 238-243): pure presentation driven by scroll, mouse and timer events. The initial `updateActiveNav()` call at script.js:236 is the modelled handler.
- The IntersectionObserver reveal (script.js:173-199): it depends on layout and the viewport. Elements are never unobserved, so no one-shot behaviour exists to state. It shares a write with the gallery: every `.gallery-item` is observed, set to opacity `'0'` at load and set to `'1'` whenever it intersects the viewport (script.js:181, 193-198); see `Gallery.Filter` below.
- Parallax (script.js:202-209): floating-point offset written into CSS.
- The submit button's spinner text, its `disabled` flag and the 2-second delay (script.js:126-142): `SubmitForm` describes the form once the timer has run. An edit made during those 2 seconds would be wiped by the reset, and this is not modelled.
- The scroll-to-top button's click, hover handlers and inline styles (script.js:250-282): presentation and scrolling only.
- QuoteRequest.Slug: lower-casing is ASCII only, and characters are Unicode scalar values, not UTF-16 code units. JavaScript's Unicode `toLowerCase` can change a string's length (`İ` becomes two code units) or map a non-ASCII character to ASCII (the Kelvin sign becomes `k`). JavaScript strings are UTF-16 code units, so `/[^a-z0-9]/g` (no `u` flag) turns one character outside the Basic Multilingual Plane into `--`, where the model gives `-`. So the length and character-class properties are promised only for ASCII names.
- QuoteRequest.LowerChar: maps only `A`-`Z`; every other character is left unchanged, while JavaScript also lower-cases non-ASCII letters (`É` becomes `é`). For the slug the difference is invisible when the lower-cased letter is non-ASCII, because the replacement turns it into `-` either way.
- QuoteRequest.ReplaceOutsideClass: the replacement works per Unicode scalar value, not per UTF-16 code unit. A character outside the Basic Multilingual Plane, such as an emoji, becomes one `-` in the model, while the source's `/[^a-z0-9]/g` without the `u` flag sees two code units and writes `--`. On text inside the Basic Multilingual Plane the two agree.
- QuoteRequest.LowerCase: the same ASCII restriction and code-unit difference as `Slug`.
- QuoteRequest.OpenQuoteModal: the `service` control is modelled as a free-text field that holds whatever is assigned to it. The page markup is not part of this model. If the control is a `<select>` and the slug names none of its options, the browser leaves its value `""`.
- QuoteRequest.QuoteThenSubmit: rests on the same free-text assumption. With a `<select>` whose options do not include the slug, the form would be rejected even for a non-empty service name.
- Gallery.Filter: the opacity clause covers only the tab handler's own writes. The reveal observer also writes `opacity = '1'` whenever an item scrolls into view, with no regard to the selected tab. After a click reflows the grid, an unselected item can come into view before its 300 ms collapse fires, and it then settles at `display: none` with opacity `'1'` where `Filter` says transparent. Such an item is still not shown, so the display clauses, and which items `ClickSettles` and `CancellingClickSettles` show, are unaffected; their opacity clauses hold only when the observer does not fire in between.
- Gallery.Advance: due timers fire in the order they were scheduled, not sorted by due time. `EffectsCommute` shows this order does not change the result.
- ActiveNav.CurrentSection: `scrollY` is modelled as an integer, while browsers report it as a floating-point number. `offsetTop` and `offsetHeight` are integers in the browser too. With integer band ends, `a <= y < b` holds exactly when `a <= floor(y) < b`, so the model loses nothing when it is given `floor(scrollY)`.
- ScrollTop.OnScroll: `scrollY` is modelled as an integer. Because 500 is an integer, `y > 500` holds exactly when `ceil(y) > 500`, so the model is exact when it is given `ceil(scrollY)`. The strict comparison is kept.

=== FILE: active_nav.dfy ===
/**
 Active-link highlighting while scrolling (`updateActiveNav`).

 The sections of the page are scanned in document order; the last one whose
 band `[offsetTop - 100, offsetTop - 100 + offsetHeight)` holds the scroll
 offset names the current section (or `""` when none does). Every desktop and
 mobile navigation link is then cleared and re-marked active exactly when its
 `href` is `"#"` followed by that name.
 */
module ActiveNav {
  import opened Dom

  /** How far above its top edge a section's band starts, in pixels. */
  const BandLead := 100

  /** A `section[id]` element: its id and its layout box. */
  datatype Section = Section(id: string, offsetTop: int, offsetHeight: int)

  /** A `.nav-link` or `.mobile-nav-link` element: its `href` and whether it
      carries the `active` class. */
  datatype Link = Link(href: Attr, active: bool)

  /** The parts of the page `updateActiveNav` reads and writes. */
  datatype Page = Page(sections: seq<Section>, navLinks: seq<Link>, mobileNavLinks: seq<Link>)

  /** The scroll offset lies in the section's band. */
  predicate InBand(s: Section, scrollY: int) {
    s.offsetTop - BandLead <= scrollY < s.offsetTop - BandLead + s.offsetHeight
  }

  /** The index of the last section in document order whose band holds
      `scrollY`, or `None` when no band does. */
  function LastMatch(sections: seq<Section>, scrollY: int): (k: Option<nat>)
    ensures k.Some? ==> k.value < |sections| && InBand(sections[k.value], scrollY)
    ensures k.Some? ==> forall j :: k.value < j < |sections| ==> !InBand(sections[j], scrollY)
    ensures k.None? ==> forall j :: 0 <= j < |sections| ==> !InBand(sections[j], scrollY)
  {
    if |sections| == 0 then None
    else if InBand(sections[|sections| - 1], scrollY) then Some(|sections| - 1)
    else LastMatch(sections[..|sections| - 1], scrollY)
  }

  /** The id `updateActiveNav` settles on: that of the last matching section,
      or the empty string. */
  function CurrentSection(sections: seq<Section>, scrollY: int): (current: string)
    ensures (forall j :: 0 <= j < |sections| ==> !InBand(sections[j], scrollY)) ==> current == ""
    ensures forall i :: 0 <= i < |sections| && InBand(sections[i], scrollY)
                        && (forall j :: i < j < |sections| ==> !InBand(sections[j], scrollY))
                        ==> current == sections[i].id
  {
    match LastMatch(sections, scrollY)
    case None => ""
    case Some(k) => sections[k].id
  }

  /** The `forEach` scan over the sections: every matching section overwrites
      `current`, so the last match in document order is kept. */
  method ScanCurrent(sections: seq<Section>, scrollY: int) returns (current: string)
    ensures current == CurrentSection(sections, scrollY)
  {
    current := "";
    for i := 0 to |sections|
      invariant current == CurrentSection(sections[..i], scrollY)
    {
      assert sections[..i + 1][..i] == sections[..i];
      if InBand(sections[i], scrollY) {
        current := sections[i].id;
      }
    }
    assert sections[..|sections|] == sections;
  }

  /** One link: the `active` class is removed, then added back exactly when
      the link's `href` is `"#" + current`. */
  function MarkLink(link: Link, current: string): (r: Link)
    ensures r.href == link.href
    ensures r.active <==> link.href == Present("#" + current)
  {
    var cleared := link.(active := false);
    if cleared.href == Present("#" + current) then cleared.(active := true) else cleared
  }

  /** Every link of a collection re-marked against `current`. */
  function MarkLinks(links: seq<Link>, current: string): (r: seq<Link>)
    ensures |r| == |links|
    ensures forall i :: 0 <= i < |r| ==> r[i].href == links[i].href
    ensures forall i :: 0 <= i < |r| ==> (r[i].active <==> links[i].href == Present("#" + current))
  {
    seq(|links|, i requires 0 <= i < |links| => MarkLink(links[i], current))
  }

  /** A link collection is marked for `current`: each link is active exactly
      when it points at `#current`. */
  ghost predicate MarkedFor(links: seq<Link>, current: string) {
    forall i :: 0 <= i < |links| ==> (links[i].active <==> links[i].href == Present("#" + current))
  }

  /** Two link collections that differ at most in which links are active. */
  ghost predicate SameHrefs(a: seq<Link>, b: seq<Link>) {
    |a| == |b| && forall i :: 0 <= i < |a| ==> a[i].href == b[i].href
  }

  /** The scroll handler: the current section is computed, then both link
      collections are re-marked; the sections themselves are left alone. */
  function UpdateActiveNav(page: Page, scrollY: int): (r: Page)
    ensures r.sections == page.sections
    ensures SameHrefs(r.navLinks, page.navLinks) && SameHrefs(r.mobileNavLinks, page.mobileNavLinks)
    ensures MarkedFor(r.navLinks, CurrentSection(page.sections, scrollY))
    ensures MarkedFor(r.mobileNavLinks, CurrentSection(page.sections, scrollY))
  {
    var current := CurrentSection(page.sections, scrollY);
    Page(page.sections, MarkLinks(page.navLinks, current), MarkLinks(page.mobileNavLinks, current))
  }

  /** The outcome does not depend on which links were active before: only the
      hrefs and the sections matter. */
  lemma UpdateIgnoresPriorMarks(p: Page, q: Page, scrollY: int)
    requires p.sections == q.sections
    requires SameHrefs(p.navLinks, q.navLinks) && SameHrefs(p.mobileNavLinks, q.mobileNavLinks)
    ensures UpdateActiveNav(p, scrollY) == UpdateActiveNav(q, scrollY)
  {
    var r, s := UpdateActiveNav(p, scrollY), UpdateActiveNav(q, scrollY);
    assert r.navLinks == s.navLinks by {
      forall i | 0 <= i < |r.navLinks|
        ensures r.navLinks[i] == s.navLinks[i]
      {
      }
    }
    assert r.mobileNavLinks == s.mobileNavLinks by {
      forall i | 0 <= i < |r.mobileNavLinks|
        ensures r.mobileNavLinks[i] == s.mobileNavLinks[i]
      {
      }
    }
  }

  /** Handling the same scroll offset twice changes nothing the second time. */
  lemma UpdateIdempotent(p: Page, scrollY: int)
    ensures UpdateActiveNav(UpdateActiveNav(p, scrollY), scrollY) == UpdateActiveNav(p, scrollY)
  {
    UpdateIgnoresPriorMarks(UpdateActiveNav(p, scrollY), p, scrollY);
  }

  /** Pairwise distinct hrefs in a link collection. */
  ghost predicate DistinctHrefs(links: seq<Link>) {
    forall i, j :: 0 <= i < j < |links| ==> links[i].href != links[j].href
  }

  /** When a collection's hrefs are distinct, at most one of its links ends
      up active; this holds for the desktop and the mobile links alike. */
  lemma AtMostOneActive(links: seq<Link>, current: string, i: nat, j: nat)
    requires DistinctHrefs(links)
    requires i < j < |links|
    ensures !(MarkLinks(links, current)[i].active && MarkLinks(links, current)[j].active)
  {
  }

  /** In either link collection, an active link after the update names a
      section whose band holds the offset and after which no section's band
      does, unless no band holds it at all and the link is a bare `"#"`. */
  lemma ActiveLinkNamesLastSection(sections: seq<Section>, links: seq<Link>, scrollY: int, i: nat)
    requires i < |links| && MarkLinks(links, CurrentSection(sections, scrollY))[i].active
    ensures || (exists k :: 0 <= k < |sections| && InBand(sections[k], scrollY)
                         && (forall j :: k < j < |sections| ==> !InBand(sections[j], scrollY))
                         && links[i].href == Present("#" + sections[k].id))
            || ((forall j :: 0 <= j < |sections| ==> !InBand(sections[j], scrollY))
                && links[i].href == Present("#"))
  {
    match LastMatch(sections, scrollY)
    case None =>
    case Some(k) =>
      assert InBand(sections[k], scrollY);
  }

  /** When no band holds the offset, `current` is empty and, in either link
      collection, exactly the links whose href is the bare fragment `"#"` are
      marked active. */
  lemma NoMatchMarksBareHash(sections: seq<Section>, links: seq<Link>, scrollY: int)
    requires forall j :: 0 <= j < |sections| ==> !InBand(sections[j], scrollY)
    ensures forall i :: 0 <= i < |links| ==>
              (MarkLinks(links, CurrentSection(sections, scrollY))[i].active <==> links[i].href == Present("#"))
  {
  }
}

=== FILE: contact_form.dfy ===
/**
 The contact form's `submitForm`.

 The five field values are read as they are and checked for JavaScript
 truthiness only: no trimming and no check of the e-mail's shape. When all
 five are non-empty the submission is simulated, a thank-you alert is raised
 and the five fields are reset to `""`; otherwise a "fill in all required
 fields" alert is raised and nothing else happens.
 */
module ContactForm {
  import opened Dom

  /** The values of the `name`, `email`, `phone`, `service` and `message`
      controls. */
  datatype Fields = Fields(name: string, email: string, phone: string, service: string, message: string)

  /** Every field reset to the empty string. */
  const Cleared := Fields("", "", "", "", "")

  const ThankYouAlert := "Thank you for your message! We will get back to you within 24 hours with your free quote."
  const MissingFieldsAlert := "Please fill in all required fields."

  /** What one call of `submitForm` leaves behind once its timer has run: the
      field values, the alert raised, and whether the form was accepted. */
  datatype Submission = Submission(fields: Fields, alert: string, accepted: bool)

  /** The guard `name && email && phone && service && message`. */
  predicate AllTruthy(f: Fields) {
    Truthy(f.name) && Truthy(f.email) && Truthy(f.phone) && Truthy(f.service) && Truthy(f.message)
  }

  function SubmitForm(f: Fields): (r: Submission)
    ensures r.accepted <==> |f.name| > 0 && |f.email| > 0 && |f.phone| > 0 && |f.service| > 0 && |f.message| > 0
    ensures r.accepted ==> r.fields == Fields("", "", "", "", "") && r.alert == ThankYouAlert
    ensures !r.accepted ==> r.fields == f && r.alert == MissingFieldsAlert
  {
    if AllTruthy(f) then Submission(Cleared, ThankYouAlert, true)
    else Submission(f, MissingFieldsAlert, false)
  }

  /** A single empty field is enough for rejection, whatever the others
      hold. */
  lemma OneEmptyFieldRejects(f: Fields)
    requires f.name == "" || f.email == "" || f.phone == "" || f.service == "" || f.message == ""
    ensures SubmitForm(f) == Submission(f, MissingFieldsAlert, false)
  {
  }

  /** The string holds spaces only. */
  predicate Blank(s: string) {
    forall i :: 0 <= i < |s| ==> s[i] == ' '
  }

  /** Values made of spaces only pass: nothing is trimmed, so any five
      non-empty blank values are accepted and the form is cleared. */
  lemma BlankValuesAccepted(f: Fields)
    requires Blank(f.name) && Blank(f.email) && Blank(f.phone) && Blank(f.service) && Blank(f.message)
    requires |f.name| > 0 && |f.email| > 0 && |f.phone| > 0 && |f.service| > 0 && |f.message| > 0
    ensures SubmitForm(f) == Submission(Cleared, ThankYouAlert, true)
  {
  }

  /** Any e-mail text passes, well-formed or not. */
  lemma EmailShapeNotChecked(f: Fields)
    requires AllTruthy(f)
    ensures SubmitForm(f.(email := "not-an-email")).accepted
  {
  }

  /** After an accepted submission the cleared form is rejected if sent
      again. */
  lemma ResubmitAfterAcceptRejected(f: Fields)
    requires SubmitForm(f).accepted
    ensures !SubmitForm(SubmitForm(f).fields).accepted
  {
  }

  /** A rejected submission leaves the form as it was, so submitting it again
      gives the same outcome. */
  lemma RejectionStable(f: Fields)
    requires !SubmitForm(f).accepted
    ensures SubmitForm(SubmitForm(f).fields) == SubmitForm(f)
  {
  }
}

=== FILE: dom.dfy ===
/**
 Values the page script reads out of the document, abstracted away from the
 browser: an optional value, the result of `getAttribute` (which is `null`
 when the attribute is absent), and JavaScript truthiness of a string.
 */
module Dom {

  /** The conventional optional value. */
  datatype Option<+T> = None | Some(value: T)

  /** What `element.getAttribute(name)` returns: `null` or the attribute text. */
  datatype Attr = Missing | Present(text: string)

  /** A JavaScript string is truthy exactly when it is not the empty string;
      a string of spaces is truthy. */
  predicate Truthy(s: string) {
    s != ""
  }
}

=== FILE: gallery.dfy ===
/**
 The gallery category filter.

 Clicking a `.gallery-tab` removes `active` from every tab and adds it to the
 clicked one. Each `.gallery-item` is then either selected (the tab's
 category is `"all"` or equals the item's own) or not. A selected item gets
 `display: block` and `opacity: 0` at once, and `opacity: 1` from a timer
 100 ms later; an unselected item gets `opacity: 0` at once and
 `display: none` from a timer 300 ms later.

 The timers are part of the state: each pending one records when it is due,
 which item it touches and what it does. A Reveal only writes opacity and a
 Collapse only writes display, so the order in which due timers fire does
 not change the outcome (`EffectsCommute`), and `Advance` fires them in the
 order they were scheduled.
 */
module Gallery {
  import opened Dom

  /** The tab category that selects every item. */
  const All := "all"
  /** Delay before a selected item fades in, in milliseconds. */
  const RevealDelay := 100
  /** Delay before an unselected item leaves the layout, in milliseconds. */
  const CollapseDelay := 300

  /** A `.gallery-tab`: its `data-category` and whether it is `active`. */
  datatype Tab = Tab(category: Attr, active: bool)

  /** The inline `display` style of an item: not set, `block` or `none`. */
  datatype Display = DisplayUnset | DisplayBlock | DisplayNone

  /** The inline `opacity` style of an item: not set, `'0'` or `'1'`. */
  datatype Opacity = OpacityUnset | Transparent | Opaque

  /** A `.gallery-item`: its `data-category` and its inline styles. */
  datatype Item = Item(category: Attr, display: Display, opacity: Opacity)

  /** What a pending timer callback does to its item. */
  datatype Effect = Reveal | Collapse

  /** A pending `setTimeout` callback. */
  datatype Timer = Timer(due: int, index: nat, effect: Effect)

  /** The tabs, the items, the pending timers and the clock. */
  datatype State = State(tabs: seq<Tab>, items: seq<Item>, timers: seq<Timer>, now: int)

  /** Every pending timer touches an existing item. */
  predicate TimersFit(timers: seq<Timer>, items: seq<Item>) {
    forall t :: t in timers ==> t.index < |items|
  }

  predicate Valid(st: State) {
    TimersFit(st.timers, st.items)
  }

  /** The handler's test `category === 'all' || itemCategory === category`;
      two missing attributes compare equal, as `null === null` does. */
  predicate Selects(category: Attr, itemCategory: Attr) {
    category == Present(All) || itemCategory == category
  }

  /** An item takes part in the layout. */
  predicate Shown(item: Item) {
    item.display != DisplayNone
  }

  /** The clicked tab becomes the only active one. */
  function ActivateTab(tabs: seq<Tab>, k: nat): (r: seq<Tab>)
    requires k < |tabs|
    ensures |r| == |tabs|
    ensures forall i :: 0 <= i < |r| ==> r[i].category == tabs[i].category
    ensures forall i :: 0 <= i < |r| ==> (r[i].active <==> i == k)
  {
    seq(|tabs|, i requires 0 <= i < |tabs| => tabs[i].(active := i == k))
  }

  /** The styles an item gets synchronously from the click. */
  function StartItem(item: Item, category: Attr): (r: Item)
    ensures r.category == item.category && r.opacity == Transparent
    ensures Selects(category, item.category) ==> r.display == DisplayBlock
    ensures !Selects(category, item.category) ==> r.display == item.display
  {
    if Selects(category, item.category) then item.(display := DisplayBlock, opacity := Transparent)
    else item.(opacity := Transparent)
  }

  /** The timer an item gets from the click. */
  function ItemTimer(item: Item, i: nat, category: Attr, now: int): (t: Timer)
    ensures t.index == i
    ensures Selects(category, item.category) ==> t.effect == Reveal && t.due == now + RevealDelay
    ensures !Selects(category, item.category) ==> t.effect == Collapse && t.due == now + CollapseDelay
  {
    if Selects(category, item.category) then Timer(now + RevealDelay, i, Reveal)
    else Timer(now + CollapseDelay, i, Collapse)
  }

  /** Every item styled as the click styles it synchronously. */
  function StartFilter(items: seq<Item>, category: Attr): (r: seq<Item>)
    ensures |r| == |items|
    ensures forall i :: 0 <= i < |r| ==> r[i].category == items[i].category && r[i].opacity == Transparent
    ensures forall i :: 0 <= i < |r| ==>
              r[i].display == if Selects(category, items[i].category) then DisplayBlock else items[i].display
  {
    seq(|items|, i requires 0 <= i < |items| => StartItem(items[i], category))
  }

  /** The timers the click schedules, one per item in item order. */
  function Schedule(items: seq<Item>, category: Attr, now: int): (r: seq<Timer>)
    ensures |r| == |items|
    ensures forall i :: 0 <= i < |r| ==> r[i].index == i && r[i].due <= now + CollapseDelay
    ensures forall i :: 0 <= i < |r| ==>
              if Selects(category, items[i].category) then r[i].effect == Reveal && r[i].due == now + RevealDelay
              else r[i].effect == Collapse && r[i].due == now + CollapseDelay
    ensures TimersFit(r, items)
  {
    seq(|items|, i requires 0 <= i < |items| => ItemTimer(items[i], i, category, now))
  }

  /** The click handler of tab `k`, up to the point where it returns: the tabs
      and the items change at once, the timers join those already pending. */
  function Click(st: State, k: nat): (r: State)
    requires Valid(st) && k < |st.tabs|
    ensures Valid(r) && r.now == st.now
    ensures |r.tabs| == |st.tabs|
    ensures forall i :: 0 <= i < |r.tabs| ==> r.tabs[i].category == st.tabs[i].category
    ensures forall i :: 0 <= i < |r.tabs| ==> (r.tabs[i].active <==> i == k)
    ensures |r.items| == |st.items|
    ensures forall i :: 0 <= i < |r.items| ==>
              r.items[i].category == st.items[i].category && r.items[i].opacity == Transparent
    ensures forall i :: 0 <= i < |r.items| ==>
              if Selects(st.tabs[k].category, st.items[i].category) then r.items[i].display == DisplayBlock
              else r.items[i].display == st.items[i].display
    ensures |r.timers| == |st.timers| + |st.items| && r.timers[..|st.timers|] == st.timers
    ensures r.timers[|st.timers|..] == Schedule(st.items, st.tabs[k].category, st.now)
  {
    var category := st.tabs[k].category;
    State(ActivateTab(st.tabs, k), StartFilter(st.items, category),
          st.timers + Schedule(st.items, category, st.now), st.now)
  }

  /** What a fired timer does to its item. */
  function ApplyEffect(item: Item, e: Effect): (r: Item)
    ensures r.category == item.category
    ensures e == Reveal ==> r.opacity == Opaque && r.display == item.display
    ensures e == Collapse ==> r.display == DisplayNone && r.opacity == item.opacity
  {
    match e
    case Reveal => item.(opacity := Opaque)
    case Collapse => item.(display := DisplayNone)
  }

  /** The items once timer `t` has fired: only its own item changes. */
  function Apply(items: seq<Item>, t: Timer): (r: seq<Item>)
    requires t.index < |items|
    ensures |r| == |items|
    ensures forall i :: 0 <= i < |r| && i != t.index ==> r[i] == items[i]
    ensures r[t.index].category == items[t.index].category
    ensures t.effect == Reveal ==>
              r[t.index].opacity == Opaque && r[t.index].display == items[t.index].display
    ensures t.effect == Collapse ==>
              r[t.index].display == DisplayNone && r[t.index].opacity == items[t.index].opacity
  {
    items[t.index := ApplyEffect(items[t.index], t.effect)]
  }

  /** Any two timers, fired in either order, leave the same styles: a reveal
      and a collapse write different properties, and two timers with the same
      effect write the same value. */
  lemma EffectsCommute(items: seq<Item>, t: Timer, u: Timer)
    requires t.index < |items| && u.index < |items|
    ensures Apply(Apply(items, t), u) == Apply(Apply(items, u), t)
  {
  }

  /** Some timer among `timers`, due by `now`, has effect `e` on item `i`. */
  predicate DueFor(timers: seq<Timer>, now: int, i: nat, e: Effect) {
    exists j :: 0 <= j < |timers| && timers[j].due <= now && timers[j].index == i && timers[j].effect == e
  }

  lemma DueForLast(timers: seq<Timer>, now: int, i: nat, e: Effect)
    requires |timers| > 0
    ensures var last := timers[|timers| - 1];
            DueFor(timers, now, i, e) <==>
              DueFor(timers[..|timers| - 1], now, i, e) || (last.due <= now && last.index == i && last.effect == e)
  {
    var prefix := timers[..|timers| - 1];
    if DueFor(timers, now, i, e) {
      var j :| 0 <= j < |timers| && timers[j].due <= now && timers[j].index == i && timers[j].effect == e;
      if j < |prefix| {
        assert prefix[j] == timers[j];
      }
    }
    if DueFor(prefix, now, i, e) {
      var j :| 0 <= j < |prefix| && prefix[j].due <= now && prefix[j].index == i && prefix[j].effect == e;
      assert timers[j] == prefix[j];
    }
  }

  lemma DueForLastAll(timers: seq<Timer>, now: int)
    requires |timers| > 0
    ensures forall i: nat, e :: var last := timers[|timers| - 1];
              DueFor(timers, now, i, e) <==>
                DueFor(timers[..|timers| - 1], now, i, e) || (last.due <= now && last.index == i && last.effect == e)
  {
    forall i: nat, e: Effect {
      DueForLast(timers, now, i, e);
    }
  }

  /** The items after every timer due by `now` has fired, in schedule order:
      an item is out of the layout exactly when it already was or a due
      Collapse targets it, and opaque exactly when it already was or a due
      Reveal targets it; its other styles are kept. */
  function FireDue(items: seq<Item>, timers: seq<Timer>, now: int): (r: seq<Item>)
    requires TimersFit(timers, items)
    ensures |r| == |items|
    ensures forall i :: 0 <= i < |r| ==> r[i].category == items[i].category
    ensures forall i :: 0 <= i < |r| ==>
              r[i].display == if DueFor(timers, now, i, Collapse) then DisplayNone else items[i].display
    ensures forall i :: 0 <= i < |r| ==>
              r[i].opacity == if DueFor(timers, now, i, Reveal) then Opaque else items[i].opacity
  {
    if |timers| == 0 then items
    else
      var last := timers[|timers| - 1];
      assert last in timers;
      DueForLastAll(timers, now);
      var before := FireDue(items, timers[..|timers| - 1], now);
      if last.due <= now then Apply(before, last) else before
  }

  /** The timers not yet due at `now`, in their order. */
  function Pending(timers: seq<Timer>, now: int): (r: seq<Timer>)
    ensures forall t :: t in r <==> t in timers && t.due > now
    ensures (forall i :: 0 <= i < |timers| ==> timers[i].due <= now) ==> r == []
  {
    if |timers| == 0 then []
    else
      var rest := Pending(timers[1..], now);
      assert forall t :: t in timers <==> t == timers[0] || t in timers[1..];
      if timers[0].due > now then [timers[0]] + rest else rest
  }

  /** The clock moves on by `dt` milliseconds and every timer due by then
      fires. */
  function Advance(st: State, dt: nat): (r: State)
    requires Valid(st)
    ensures Valid(r) && r.tabs == st.tabs && r.now == st.now + dt
    ensures forall t :: t in r.timers <==> t in st.timers && t.due > r.now
    ensures |r.items| == |st.items|
    ensures forall i :: 0 <= i < |r.items| ==> r.items[i].category == st.items[i].category
    ensures forall i :: 0 <= i < |r.items| ==>
              r.items[i].display == if DueFor(st.timers, r.now, i, Collapse) then DisplayNone else st.items[i].display
    ensures forall i :: 0 <= i < |r.items| ==>
              r.items[i].opacity == if DueFor(st.timers, r.now, i, Reveal) then Opaque else st.items[i].opacity
  {
    var now := st.now + dt;
    State(st.tabs, FireDue(st.items, st.timers, now), Pending(st.timers, now), now)
  }

  /** The settled outcome of filtering by `category`: a selected item is
      displayed and opaque, any other item is out of the layout and
      transparent, whatever their styles were before. */
  function Filter(items: seq<Item>, category: Attr): (r: seq<Item>)
    ensures |r| == |items|
    ensures forall i :: 0 <= i < |r| ==> r[i].category == items[i].category
    ensures forall i :: 0 <= i < |r| ==>
              (Shown(r[i]) <==> Selects(category, items[i].category))
    ensures forall i :: 0 <= i < |r| ==>
              (r[i].display == DisplayBlock && r[i].opacity == Opaque) || (r[i].display == DisplayNone && r[i].opacity == Transparent)
  {
    seq(|items|, i requires 0 <= i < |items| =>
      if Selects(category, items[i].category) then items[i].(display := DisplayBlock, opacity := Opaque)
      else items[i].(display := DisplayNone, opacity := Transparent))
  }

  /** Filtering twice by the same category gives what filtering once gives. */
  lemma FilterIdempotent(items: seq<Item>, category: Attr)
    ensures Filter(Filter(items, category), category) == Filter(items, category)
  {
  }

  /** Category `"all"` shows every item, whatever was shown before. */
  lemma FilterAllShowsEverything(items: seq<Item>)
    ensures forall i :: 0 <= i < |items| ==> Shown(Filter(items, Present(All))[i])
  {
  }

  /** Firing a prefix of one click's timers, all of them due, settles exactly
      the items that prefix covers. */
  lemma {:induction false} FireSchedulePrefix(items: seq<Item>, category: Attr, now: int, later: int, j: nat)
    requires j <= |items| && now + CollapseDelay <= later
    ensures TimersFit(Schedule(items, category, now)[..j], StartFilter(items, category))
    ensures var r := FireDue(StartFilter(items, category), Schedule(items, category, now)[..j], later);
            forall i :: 0 <= i < |items| ==>
              r[i] == (if i < j then Filter(items, category)[i] else StartFilter(items, category)[i])
  {
    var ts := Schedule(items, category, now)[..j];
    assert TimersFit(ts, StartFilter(items, category)) by {
      forall t | t in ts
        ensures t.index < |items|
      {
        var m :| 0 <= m < |ts| && ts[m] == t;
      }
    }
    if j > 0 {
      FireSchedulePrefix(items, category, now, later, j - 1);
      assert ts[..j - 1] == Schedule(items, category, now)[..j - 1];
    }
  }

  /** Firing all of one click's timers, once every one of them is due,
      leaves the items exactly as `Filter` describes. */
  lemma FireSchedule(items: seq<Item>, category: Attr, now: int, later: int)
    requires now + CollapseDelay <= later
    ensures TimersFit(Schedule(items, category, now), StartFilter(items, category))
    ensures FireDue(StartFilter(items, category), Schedule(items, category, now), later) == Filter(items, category)
  {
    var ts := Schedule(items, category, now);
    FireSchedulePrefix(items, category, now, later, |items|);
    assert ts[..|items|] == ts;
  }

  /** Starting with no timer pending, a click followed by 300 ms or more
      leaves exactly the clicked tab active, every item styled as `Filter`
      says, and no timer pending. */
  lemma ClickSettles(st: State, k: nat, dt: nat)
    requires Valid(st) && k < |st.tabs| && st.timers == []
    requires dt >= CollapseDelay
    ensures var r := Advance(Click(st, k), dt);
            && |r.tabs| == |st.tabs|
            && (forall i :: 0 <= i < |r.tabs| ==> (r.tabs[i].active <==> i == k))
            && r.items == Filter(st.items, st.tabs[k].category)
            && r.timers == []
  {
    var category := st.tabs[k].category;
    var ts := Schedule(st.items, category, st.now);
    var later := st.now + dt;
    assert Click(st, k) == State(ActivateTab(st.tabs, k), StartFilter(st.items, category), ts, st.now);
    FireSchedule(st.items, category, st.now, later);
    assert Pending(ts, later) == [];
  }

  /** Once settled, clicking the same tab again leaves the items as they
      were. */
  lemma ReclickIdempotent(st: State, k: nat, dt: nat)
    requires Valid(st) && k < |st.tabs| && st.timers == []
    requires dt >= CollapseDelay
    ensures var once := Advance(Click(st, k), dt);
            Advance(Click(once, k), dt).items == once.items
  {
    var once := Advance(Click(st, k), dt);
    ClickSettles(st, k, dt);
    ClickSettles(once, k, dt);
    assert once.tabs[k].category == st.tabs[k].category;
    FilterIdempotent(st.items, st.tabs[k].category);
  }

  /** The click handler as it should be: timers left over from an earlier
      click are cancelled before new ones are scheduled. */
  function ClickCancelling(st: State, k: nat): (r: State)
    requires Valid(st) && k < |st.tabs|
    ensures Valid(r) && r.now == st.now
    ensures |r.tabs| == |st.tabs|
    ensures forall i :: 0 <= i < |r.tabs| ==> (r.tabs[i].active <==> i == k)
    ensures r.items == StartFilter(st.items, st.tabs[k].category)
    ensures r.timers == Schedule(st.items, st.tabs[k].category, st.now)
    ensures forall t :: t in r.timers ==> st.now < t.due <= st.now + CollapseDelay
  {
    Click(st.(timers := []), k)
  }

  /** With cancellation, a click followed by 300 ms settles the items on the
      clicked category from any state, however recently another tab was
      clicked. */
  lemma CancellingClickSettles(st: State, k: nat, dt: nat)
    requires Valid(st) && k < |st.tabs|
    requires dt >= CollapseDelay
    ensures var r := Advance(ClickCancelling(st, k), dt);
            && |r.tabs| == |st.tabs|
            && (forall i :: 0 <= i < |r.tabs| ==> (r.tabs[i].active <==> i == k))
            && r.items == Filter(st.items, st.tabs[k].category)
            && r.timers == []
  {
    ClickSettles(st.(timers := []), k, dt);
  }

  // The states of the rapid-click run below: tabs "all" and "kitchen", one
  // "bath" item; "kitchen" is clicked at 0 ms and "all" at 50 ms.
  const RunTabs := [Tab(Present(All), true), Tab(Present("kitchen"), false)]
  const RunKitchenTabs := [Tab(Present(All), false), Tab(Present("kitchen"), true)]
  const RunStart := State(RunTabs, [Item(Present("bath"), DisplayUnset, OpacityUnset)], [], 0)
  const RunCollapse := Timer(300, 0, Collapse)
  const RunReveal := Timer(150, 0, Reveal)
  const RunFaded := [Item(Present("bath"), DisplayUnset, Transparent)]
  const RunAfterKitchen := State(RunKitchenTabs, RunFaded, [RunCollapse], 0)
  const RunAt50 := State(RunKitchenTabs, RunFaded, [RunCollapse], 50)
  const RunAfterAll := State(RunTabs, [Item(Present("bath"), DisplayBlock, Transparent)], [RunCollapse, RunReveal], 50)
  const RunEnd := State(RunTabs, [Item(Present("bath"), DisplayNone, Opaque)], [], 350)

  lemma RunClickKitchen()
    ensures Valid(RunStart) && Click(RunStart, 1) == RunAfterKitchen
  {
    assert ActivateTab(RunTabs, 1) == RunKitchenTabs;
    assert StartFilter(RunStart.items, Present("kitchen")) == RunFaded;
    assert Schedule(RunStart.items, Present("kitchen"), 0) == [RunCollapse];
  }

  lemma RunWait50()
    ensures Valid(RunAfterKitchen) && Advance(RunAfterKitchen, 50) == RunAt50
  {
    var collapseOnly := [RunCollapse];
    assert collapseOnly[..0] == [] && collapseOnly[1..] == [];
    assert FireDue(RunFaded, [], 50) == RunFaded;
    assert Pending([], 50) == [];
  }

  lemma RunClickAll()
    ensures Valid(RunAt50) && Click(RunAt50, 0) == RunAfterAll
  {
    assert ActivateTab(RunKitchenTabs, 0) == RunTabs;
    assert StartFilter(RunFaded, Present(All)) == RunAfterAll.items;
    assert Schedule(RunFaded, Present(All), 50) == [RunReveal];
  }

  lemma RunWait300()
    ensures Valid(RunAfterAll) && Advance(RunAfterAll, CollapseDelay) == RunEnd
  {
    var collapseOnly := [RunCollapse];
    var bothTimers := [RunCollapse, RunReveal];
    var revealOnly := [RunReveal];
    assert bothTimers[..1] == collapseOnly && collapseOnly[..0] == [];
    assert FireDue(RunAfterAll.items, [], 350) == RunAfterAll.items;
    assert FireDue(RunAfterAll.items, collapseOnly, 350) == [Item(Present("bath"), DisplayNone, Transparent)];
    assert bothTimers[1..] == revealOnly && revealOnly[1..] == [];
    assert Pending([], 350) == [];
    assert Pending(revealOnly, 350) == [];
  }

  /** As written, the handler does not cancel earlier timers. With tabs
      `"all"` and `"kitchen"` and one `"bath"` item, clicking `"kitchen"`,
      then `"all"` 50 ms later, and waiting 300 ms leaves the item out of the
      layout while `"all"` is the active tab: the first click's collapse
      timer fires after the second click displayed the item. */
  lemma RapidClicksHideSelectedItem()
    ensures Valid(RunStart)
    ensures var r := Advance(Click(Advance(Click(RunStart, 1), 50), 0), CollapseDelay);
            && r.tabs[0].active
            && Selects(r.tabs[0].category, r.items[0].category)
            && r.timers == []
            && !Shown(r.items[0])
  {
    RunClickKitchen();
    RunWait50();
    RunClickAll();
    RunWait300();
  }
}

=== FILE: quote_request.dfy ===
/**
 `openQuoteModal(service)`: the contact form is pre-filled from a service
 name. The `service` control gets a slug of the name (lower-cased, then every
 character outside `[a-z0-9]` replaced by `-`) and the `message` control a
 fixed sentence with the name spliced in. The other fields are not touched.

 Lower-casing is modelled on ASCII: `A`-`Z` become `a`-`z` and every other
 character is left as it is, which the replacement then turns into `-`.
 */
module QuoteRequest {
  import opened Dom
  import ContactForm

  const MessagePrefix := "I'm interested in your "
  const MessageSuffix := " service. Please provide me with a detailed quote."

  /** The message template with the service name spliced in. */
  function QuoteMessage(service: string): (m: string)
    ensures |m| == |MessagePrefix| + |service| + |MessageSuffix|
    ensures m[..|MessagePrefix|] == MessagePrefix
    ensures m[|m| - |MessageSuffix|..] == MessageSuffix
  {
    MessagePrefix + service + MessageSuffix
  }

  /** Reads the service name back out of a quote message, if the text has the
      template's shape. */
  function ParseQuoteMessage(m: string): (r: Option<string>)
    ensures r.Some? ==> QuoteMessage(r.value) == m
  {
    if |m| >= |MessagePrefix| + |MessageSuffix|
       && m[..|MessagePrefix|] == MessagePrefix
       && m[|m| - |MessageSuffix|..] == MessageSuffix
    then
      var name := m[|MessagePrefix|..|m| - |MessageSuffix|];
      assert m == MessagePrefix + name + MessageSuffix;
      Some(name)
    else None
  }

  /** The service name can always be recovered from its message. */
  lemma {:induction false} QuoteMessageRoundTrip(service: string)
    ensures ParseQuoteMessage(QuoteMessage(service)) == Some(service)
  {
    var m := QuoteMessage(service);
    assert m[|MessagePrefix|..|m| - |MessageSuffix|] == service;
  }

  /** A character of the class `[a-z0-9]`. */
  predicate IsLowerAlnum(c: char) {
    'a' <= c <= 'z' || '0' <= c <= '9'
  }

  /** A character a slug may hold. */
  predicate IsSlugChar(c: char) {
    IsLowerAlnum(c) || c == '-'
  }

  predicate IsAsciiLetterOrDigit(c: char) {
    'a' <= c <= 'z' || 'A' <= c <= 'Z' || '0' <= c <= '9'
  }

  /** `toLowerCase` on one character, ASCII only. */
  function LowerChar(c: char): (r: char)
    ensures 'A' <= c <= 'Z' ==> 'a' <= r <= 'z' && r as int - c as int == 'a' as int - 'A' as int
    ensures !('A' <= c <= 'Z') ==> r == c
  {
    if 'A' <= c <= 'Z' then (c as int + ('a' as int - 'A' as int)) as char else c
  }

  /** `toLowerCase` on a string. */
  function LowerCase(s: string): (r: string)
    ensures |r| == |s|
    ensures forall i :: 0 <= i < |s| ==> r[i] == LowerChar(s[i])
  {
    if |s| == 0 then "" else [LowerChar(s[0])] + LowerCase(s[1..])
  }

  /** `replace(/[^a-z0-9]/g, '-')`. */
  function ReplaceOutsideClass(s: string): (r: string)
    ensures |r| == |s|
    ensures forall i :: 0 <= i < |s| ==> IsLowerAlnum(s[i]) ==> r[i] == s[i]
    ensures forall i :: 0 <= i < |s| ==> !IsLowerAlnum(s[i]) ==> r[i] == '-'
  {
    if |s| == 0 then ""
    else [if IsLowerAlnum(s[0]) then s[0] else '-'] + ReplaceOutsideClass(s[1..])
  }

  /** The slug of a service name: same length, only `[a-z0-9-]`, each letter
      or digit lower-cased in place and everything else a hyphen. */
  function Slug(s: string): (r: string)
    ensures |r| == |s|
    ensures forall i :: 0 <= i < |r| ==> IsSlugChar(r[i])
    ensures forall i :: 0 <= i < |s| ==> IsAsciiLetterOrDigit(s[i]) ==> r[i] == LowerChar(s[i])
    ensures forall i :: 0 <= i < |s| ==> !IsAsciiLetterOrDigit(s[i]) ==> r[i] == '-'
  {
    ReplaceOutsideClass(LowerCase(s))
  }

  /** A slug is its own slug. */
  lemma {:induction false} SlugIdempotent(s: string)
    ensures Slug(Slug(s)) == Slug(s)
  {
    var r := Slug(s);
    forall i | 0 <= i < |r|
      ensures Slug(r)[i] == r[i]
    {
      assert IsSlugChar(r[i]);
    }
  }

  /** The strings the slug leaves unchanged are exactly those made of
      `[a-z0-9-]`. */
  lemma {:induction false} SlugFixedPoints(s: string)
    ensures Slug(s) == s <==> forall i :: 0 <= i < |s| ==> IsSlugChar(s[i])
  {
    if forall i :: 0 <= i < |s| ==> IsSlugChar(s[i]) {
      forall i | 0 <= i < |s|
        ensures Slug(s)[i] == s[i]
      {
        assert IsSlugChar(s[i]);
      }
    }
  }

  /** The form as `openQuoteModal` leaves it. */
  function OpenQuoteModal(form: ContactForm.Fields, service: string): (r: ContactForm.Fields)
    ensures r.name == form.name && r.email == form.email && r.phone == form.phone
    ensures r.service == Slug(service)
    ensures |r.service| == |service|
    ensures forall i :: 0 <= i < |r.service| ==> IsSlugChar(r.service[i])
    ensures ParseQuoteMessage(r.message) == Some(service)
  {
    QuoteMessageRoundTrip(service);
    form.(service := Slug(service), message := QuoteMessage(service))
  }

  /** After a quote request the form passes `submitForm` exactly when the
      service name was non-empty and name, e-mail and phone are filled in:
      the message is never empty. */
  lemma QuoteThenSubmit(form: ContactForm.Fields, service: string)
    ensures ContactForm.SubmitForm(OpenQuoteModal(form, service)).accepted
            <==> form.name != "" && form.email != "" && form.phone != "" && service != ""
  {
    var f := OpenQuoteModal(form, service);
    assert |f.message| >= |MessagePrefix|;
  }
}

=== FILE: scroll_top.dfy ===
/**
 The scroll-to-top button. On every scroll event, above 500 pixels a
 `.scroll-top` button is created and appended unless one is already in the
 document; at 500 or below the first `.scroll-top` button found is removed.

 The state is the number of `.scroll-top` buttons in the document; only this
 handler adds or removes them.
 */
module ScrollTop {

  /** Scroll offset, in pixels, the page must pass for the button to exist. */
  const Threshold := 500

  /** One scroll event. */
  function OnScroll(buttons: nat, scrollY: int): (r: nat)
    ensures r <= if buttons == 0 then 1 else buttons
    ensures buttons <= 1 ==> (r == 1 <==> scrollY > Threshold) && (r == 0 <==> scrollY <= Threshold)
    ensures buttons > 1 ==> r == if scrollY > Threshold then buttons else buttons - 1
  {
    if scrollY > Threshold then
      if buttons == 0 then buttons + 1 else buttons
    else
      if buttons > 0 then buttons - 1 else buttons
  }

  /** Handling the same offset twice is handling it once. */
  lemma OnScrollIdempotent(buttons: nat, scrollY: int)
    requires buttons <= 1
    ensures OnScroll(OnScroll(buttons, scrollY), scrollY) == OnScroll(buttons, scrollY)
  {
  }

  /** The number of buttons after a run of scroll events, starting from
      `buttons`. From a page with at most one button, however the offset
      oscillates around the threshold, no second button ever appears, and
      after the last event a button exists exactly when that event's offset
      is above 500. */
  function Replay(buttons: nat, offsets: seq<int>): (r: nat)
    ensures buttons <= 1 ==> r <= 1
    ensures buttons <= 1 && |offsets| > 0 ==> (r == 1 <==> offsets[|offsets| - 1] > Threshold)
    ensures |offsets| == 0 ==> r == buttons
  {
    if |offsets| == 0 then buttons
    else OnScroll(Replay(buttons, offsets[..|offsets| - 1]), offsets[|offsets| - 1])
  }
}
